=== FILE: README.md ===
# BNB-Token chaincode: a Dafny model of the token state machine

This project models the token logic of a Hyperledger Fabric chaincode
(`chaincode/erc20token.go`). The chaincode is an ERC-20-like fungible token.
It has a single token descriptor ("BNB-Token", symbol "BNB", 18 decimals, a
total supply), per-account balances and per-(owner, spender) allowances. Seven
public operations act on them: `InitLedger`, `MintTokens`, `TransferTokens`,
`GetBalance`, `ApproveSpender`, `TransferFrom` and `BurnTokens`. Initialising,
minting and burning are reserved to callers whose certificate carries the
"admin" organisational unit. Minting is capped at
`MaxTokensInCirculation = 200000000`.

Each operation is a pure function from the ledger state and the calling
identity to `Ok(new state)` or `Err(error)`. The model keeps Fabric's
transaction semantics:

- every read sees the state as it was when the invocation began (`GetState`
  does not observe the invocation's own `PutState`s);
- a transaction is a pair (pre-state, post-state): reads go to the first,
  writes are applied in order to the second, so the last write to a key wins;
- the post-state is committed only when the operation returns without error.
  Otherwise it is discarded, so a rejected invocation changes nothing.
  This holds even where the Go code has already written a key before a
  later step fails, as minting does.

## Layout

| file | module | contents |
|---|---|---|
| `results.dfy` | `Results` | `Option` for present/absent records; `Result` and `Need`, which work with `:-` |
| `ledger.dfy` | `Ledger` | descriptor, state, the three key spaces, single writes and how they combine |
| `sums.dfy` | `Sums` | sum of a balance map and how it changes under an update |
| `token_contract.dfy` | `TokenContract` | six Go-shaped transaction bodies, a committed public operation with its contract for each, and the read-only `GetBalance` |
| `invocation.dfy` | `Invocation` | client requests, the host's commit-or-discard, runs of requests, admin gating, which records each request creates |
| `conservation.dfy` | `Conservation` | sum of balances versus total supply, per operation and along runs |
| `bounds.dfy` | `Bounds` | supply within the cap, no negative records, and counterexamples with negative amounts |
| `round_trips.dfy` | `RoundTrips` | mint/burn and transfer/return undo each other; balance queries read back what init and transfer wrote |
| `scenarios.dfy` | `Scenarios` | approve-then-spend, accumulating approvals, concrete walk-throughs |

## Behaviour the model reproduces

These points follow the code. An idealised ERC-20 ledger treats a missing
account as holding zero and checks authorisation first; where it differs from
the code, the model follows the code.

- **Absent records abort.** In the code, `getBalance` returns a nil pointer
  for an absent key (`erc20token.go:316-317`). `GetBalance` hands that nil
  back to the client without touching it, and the allowance step of
  `ApproveSpender` nil-checks it; every other operation dereferences it,
  which aborts the invocation. The model reports this as `Err(RecordMissing)`,
  and `GetBalance` reports no record rather than zero. As a consequence,
  balance records are only ever created by `InitLedger`, for the initialising
  admin (`Invocation.RecordsCreatedOnlyByInitAndApprove`). So a transfer to an
  account that never initialised the ledger is always rejected
  (`Scenarios.TransferToFreshAccountRejected`).
- **A missing descriptor aborts.** Unmarshalling the empty value of the
  absent descriptor key fails, so minting and burning are rejected before
  `InitLedger` (`Err(TokenMissing)`).
- **Burn checks the supply before the caller's admin status.** The code
  reads the descriptor and checks the supply first (`erc20token.go:237-253`),
  and the model keeps that order of errors.
- **Self-transfer inflates.** Both reads of a transfer see the pre-state, so
  `TransferTokens(a, a, n)` ends with `balance[a] + n`
  (`Conservation.SelfTransferInflates`).
- **TransferFrom inflates.** Spending an allowance credits the receiver but
  never debits the owner (`Conservation.TransferFromInflates`).
- **Re-initialisation is unguarded.** A second `InitLedger` resets the
  supply to 10000 and sets the caller's balance to 10000. Other balances are
  kept (`Scenarios.ReinitialisationBreaksConservation`).
- **No one checks the caller of a transfer.** `TransferTokens` takes `from` as
  an argument and does not compare it with the caller. The model's
  `TransferTokens` therefore takes no caller.
- **Anyone can grant themselves an allowance.** `ApproveSpender` makes the
  caller the spender of `owner`'s tokens (`erc20token.go:157-162`) and only
  checks that the owner's balance covers the amount. So any caller can
  grant itself an allowance on any owner whose balance covers it, without
  the owner's consent.
- **Negative amounts are accepted.** Nothing rejects them. Burning a negative
  amount can push the supply past the cap, and transferring one can drive
  the receiver negative (`Bounds.NegativeBurnExceedsCap`,
  `Bounds.NegativeTransferDrainsReceiver`). The range invariants are proved
  for non-negative amounts only.

Assumptions:

- **The key spaces are disjoint.** The model assumes the descriptor key
  "BNB-Token", the account arguments clients pass and the composite allowance
  keys ("ApproveSpender", owner, spender) never collide. The code does not
  enforce this; the state is three separate maps only under this assumption
  (see "## Left out").
- **The caller is a parameter.** The identity service becomes an explicit
  `Caller(id, isAdmin)`. A non-admin caller is rejected with `NotAdmin`,
  because `isAdmin` returns an error rather than `false`.

## Model

| member | source | states |
|---|---|---|
| Ledger.ApplyWriteFrame | chaincode/erc20token.go:328-339 | a `PutState` makes its key hold exactly the written record and leaves every other key's record as it was |
| Ledger.LastWriteWins | chaincode/erc20token.go:119-132 | two writes to the same key in one invocation leave only the second, as when a self-transfer writes `from` and then `to` |
| Ledger.DisjointWritesCommute | chaincode/erc20token.go:293-305 | writes to different keys, such as the descriptor and a balance, can be applied in either order with the same result |
| TokenContract.InitLedger | chaincode/erc20token.go:31-63 | succeeds exactly for an admin; then the descriptor is ("BNB-Token", "BNB", 18, 10000) and the caller's balance is exactly 10000, whatever was stored before; allowances are untouched; a non-admin gets `NotAdmin` |
| TokenContract.MintTokens | chaincode/erc20token.go:66-106 | succeeds exactly when the caller is an admin, the descriptor exists, supply + amount is at most 200000000 and the admin has a balance record; each failure has its own error in source order; on success supply and the admin's balance rise by exactly `amount` and nothing else changes |
| TokenContract.TransferTokens | chaincode/erc20token.go:109-138 | succeeds exactly when both records exist and `from` holds at least `amount`; for distinct accounts it debits `from` and credits `to` by `amount`; for `from == to` the balance grows by `amount`; descriptor and allowances unchanged |
| TokenContract.GetBalance | chaincode/erc20token.go:309-326 | never fails; reports a record exactly when the account has one, with its stored amount, and no record (not zero) otherwise |
| TokenContract.ApproveSpender | chaincode/erc20token.go:146-190 | succeeds exactly when the owner's record exists and covers `tokens`; the (owner, caller) allowance becomes `tokens` when absent and grows by `tokens` when present; balances and descriptor unchanged |
| TokenContract.TransferFrom | chaincode/erc20token.go:193-233 | succeeds exactly when the (owner, caller) allowance exists and covers `tokens` and the receiver has a record; the allowance drops and the receiver's balance rises by `tokens`; the owner is not debited (when `sendTo` is the owner, the owner is credited); the descriptor is untouched |
| TokenContract.BurnTokens | chaincode/erc20token.go:236-278 | succeeds exactly when the descriptor exists, supply covers `amount`, the caller is an admin and its record covers `amount`; errors follow the source's order (supply before admin check); on success supply and the admin's balance drop by exactly `amount` |
| Invocation.PrivilegedOpsRequireAdmin | chaincode/erc20token.go:341-348 | initialising, minting and burning by a non-admin are rejected and leave the ledger unchanged |
| Invocation.RejectedMintNeedsNoOverflowBound | chaincode/erc20token.go:66-82 | a non-admin minting Go's largest `int` on a ledger with positive supply satisfies the overflow assumption, is rejected with `NotAdmin` and changes nothing |
| Invocation.RecordsCreatedOnlyByInitAndApprove | chaincode/erc20token.go:54-58 | no request deletes a record; only initialisation creates a balance record (the caller's), only approval creates an allowance record (owner, caller) |
| Conservation.MintPreservesImbalance | chaincode/erc20token.go:82-100 | a successful mint keeps sum(balances) − totalSupply unchanged |
| Conservation.BurnPreservesImbalance | chaincode/erc20token.go:242-276 | a successful burn keeps sum(balances) − totalSupply unchanged |
| Conservation.TransferPreservesSum | chaincode/erc20token.go:110-132 | a successful transfer between distinct accounts keeps the sum of balances and the descriptor |
| Conservation.SelfTransferInflates | chaincode/erc20token.go:110-132 | a successful self-transfer raises the sum of balances by `amount` while the supply stays put |
| Conservation.TransferFromInflates | chaincode/erc20token.go:204-230 | a successful spend of an allowance raises the sum of balances by `tokens` while the supply stays put |
| Conservation.InitLedgerImbalance | chaincode/erc20token.go:42-58 | after initialisation, sum(balances) − totalSupply equals what accounts other than the caller held |
| Conservation.InitLedgerOnEmptyConserves | chaincode/erc20token.go:42-58 | initialising an empty ledger yields sum(balances) = totalSupply |
| Conservation.StepPreservesImbalance | chaincode/erc20token.go:66-278 | every mint, burn, approval or distinct-account transfer, accepted or rejected, keeps sum(balances) − totalSupply |
| Conservation.ConservedAlongRun | chaincode/erc20token.go:66-278 | along any run of mints, burns, approvals and distinct-account transfers, sum(balances) = totalSupply keeps holding |
| Bounds.InitLedgerKeepsWellFormed | chaincode/erc20token.go:42-58 | initialisation from a well-formed ledger keeps the supply in range and every record non-negative |
| Bounds.MintTokensKeepsWellFormed | chaincode/erc20token.go:82-100 | minting a non-negative amount keeps 0 ≤ supply ≤ 200000000 and every record non-negative |
| Bounds.BurnTokensKeepsWellFormed | chaincode/erc20token.go:242-276 | burning a non-negative amount keeps the supply in range and every record non-negative |
| Bounds.TransferTokensKeepsWellFormed | chaincode/erc20token.go:110-132 | transferring a non-negative amount keeps every balance non-negative |
| Bounds.ApproveSpenderKeepsWellFormed | chaincode/erc20token.go:147-188 | approving a non-negative amount keeps every allowance non-negative |
| Bounds.TransferFromKeepsWellFormed | chaincode/erc20token.go:194-231 | spending a non-negative amount of an allowance keeps the allowance and the receiver non-negative |
| Bounds.StepPreservesWellFormed | chaincode/erc20token.go:82-84 | every request with non-negative amount whose arithmetic stays within Go's `int` keeps 0 ≤ supply ≤ 200000000 and all balances and allowances non-negative |
| Bounds.WellFormedAlongRun | chaincode/erc20token.go:66-278 | the same along any run of requests with non-negative amounts in which no credit or debit leaves Go's `int` |
| Bounds.SelfTransferLeavesGoInt | chaincode/erc20token.go:119-130 | from a well-formed ledger holding 2^62, a self-transfer of the whole balance is accepted and ends outside Go's `int`, and the overflow assumption excludes exactly that request |
| Bounds.NegativeBurnExceedsCap | chaincode/erc20token.go:242-271 | burning −1 at full supply is accepted and leaves the supply above the cap |
| Bounds.NegativeTransferDrainsReceiver | chaincode/erc20token.go:115-132 | transferring −5 is accepted and leaves the receiver at −5 |
| RoundTrips.MintThenBurnRestores | chaincode/erc20token.go:236-278 | burning what the same admin just minted restores the ledger exactly |
| RoundTrips.InitLedgerThenGetBalance | chaincode/erc20token.go:141-143 | after an admin initialises, a balance query reports exactly 10000 for that admin and the old answer for every other account |
| RoundTrips.TransferThenGetBalance | chaincode/erc20token.go:141-143 | after a transfer between distinct accounts, balance queries report `from` debited and `to` credited by the amount and every other account as before |
| RoundTrips.TransferThenReturnRestores | chaincode/erc20token.go:109-138 | returning a transfer between distinct accounts restores the ledger exactly |
| Scenarios.ApproveThenSpendDrainsAllowance | chaincode/erc20token.go:172-227 | approving `t` with no prior allowance and then spending `t` succeeds and leaves the allowance at 0 |
| Scenarios.ApprovalsAccumulate | chaincode/erc20token.go:172-178 | approving `a` and then `b` leaves an allowance of `a + b` |
| Scenarios.TransferToFreshAccountRejected | chaincode/erc20token.go:125-130 | from an empty ledger, init and mint 500 give the admin 10500, but a transfer to a recordless account is rejected |
| Scenarios.FailedMintDiscardsBufferedSupply | chaincode/erc20token.go:86-98 | a mint that fails after buffering the raised supply leaves the ledger unchanged |
| Scenarios.WalkThrough | chaincode/erc20token.go:31-278 | from an empty ledger, admin X initialises, a second admin initialises again (so both hold a record), then mints 500, transfers 200 to X, grants itself an allowance of 50 on X's balance and burns 100; the run ends with supply 10400, both accounts at 10200 and allowance (X, admin) = 50 |
| Scenarios.ReinitialisationBreaksConservation | chaincode/erc20token.go:42-58 | a second initialisation leaves the balances 10000 above the supply |

## Left out

- TokenContract.MintTokens: requires, for an admin caller and an existing descriptor (the only case that reaches line 82), that supply + amount fits Go's 64-bit `int`. The cap check at `erc20token.go:82` would wrap around otherwise, and that wrap-around is not modelled.
- The other operations compute on unbounded integers. The credits and debits at `erc20token.go:86`, `98`, `119`, `130`, `177`, `213`, `225`, `264` and `271` wrap in Go. `Invocation.NoOverflow` states that none of them leaves Go's `int` when the request actually reaches it, that is, when every check before that line passes. `Invoke`, `Settle` and `RunAll` are only defined for requests that satisfy it, so a request whose executed arithmetic would wrap is outside the model. A request rejected before its arithmetic always satisfies it (`Invocation.RejectedMintNeedsNoOverflowBound`).
- Bounds.WellFormedAlongRun: holds only along runs in which no credit or debit wraps (`Invocation.NoOverflowRun`). This matters because `TransferTokens` checks no caller. Anyone can repeat `TransferTokens(a, a, balance[a])`, which doubles the balance each time; from 10000, the 50th such call wraps it negative in Go. `Bounds.SelfTransferLeavesGoInt` exhibits the step past the range, and the overflow assumption excludes it.
- Bounds.StepPreservesWellFormed: likewise holds only for requests satisfying `Invocation.NoOverflow`.
- JSON encoding and decoding of records is treated as faithful. Only "key absent" versus "record present" is kept. A stored value that fails to unmarshal is not modelled.
- The identity service (`cid.HasOUValue`, `GetID`) is replaced by the `Caller` parameter. Its own failures (a malformed certificate, an unreadable id) are not modelled.
- Account identifiers are integers. They are compared, used as keys and combined into composite keys, so the content of the Go identity strings is not modelled.
- The composite-key string encoding is replaced by the (owner, spender) pair. The disjointness of the three key spaces is assumed, not derived. `CreateCompositeKey` can itself fail (`erc20token.go:162-165`, `199-202`). The model has no such failure, so where the code returns that error `TransferFrom` returns `RecordMissing`. Either way the request is rejected and nothing is committed.
- The key-space assumption rules out client arguments that name another key space. The account arguments of `TransferTokens`, `ApproveSpender`, `TransferFrom` and `GetBalance` are strings the client chooses. In the code, `TransferTokens(x, "BNB-Token", n)` reads the descriptor as a zero balance and then overwrites it with a balance record (`erc20token.go:125-132`). The model cannot express such a call. `Conservation.TransferPreservesSum`, `Invocation.RecordsCreatedOnlyByInitAndApprove` and the other results about the descriptor rely on the assumption.
- State-store failures of `GetState`/`PutState`, MVCC version conflicts, concurrent invocations and commit ordering are host concerns and are left out.
- `main` and chaincode start-up are process lifecycle, not logic, and are left out.
- A nil-pointer dereference in Go is a panic, not an error return. The model folds it into `Err(RecordMissing)`: in both cases nothing is committed.

=== FILE: bounds.dfy ===
/** Range invariants of the ledger: the supply stays within
    [0, MaxTokensInCirculation] and no balance or allowance goes negative.
    They hold for every request whose amounts are non-negative; nothing in
    the chaincode rejects a negative amount, and such a request breaks them. */
module Bounds {
  import opened Results
  import opened Ledger
  import opened TokenContract
  import opened Invocation

  predicate SupplyInRange(s: State) {
    s.token.Some? ==> 0 <= s.token.value.totalSupply <= MaxTokensInCirculation
  }

  predicate NoNegativeRecords(s: State) {
    && (forall a :: a in s.balances ==> s.balances[a] >= 0)
    && (forall p :: p in s.allowances ==> s.allowances[p] >= 0)
  }

  predicate WellFormed(s: State) {
    SupplyInRange(s) && NoNegativeRecords(s)
  }

  predicate NonNegativeAmount(op: Op) {
    match op
    case InitLedgerOp => true
    case MintTokensOp(n) => n >= 0
    case TransferTokensOp(_, _, n) => n >= 0
    case ApproveSpenderOp(_, n) => n >= 0
    case TransferFromOp(_, _, n) => n >= 0
    case BurnTokensOp(n) => n >= 0
  }

  /** Overwriting one balance with a non-negative amount keeps balances non-negative. */
  lemma SetBalanceKeepsNonNegative(s: State, t: State, a: AccountId, v: int)
    requires NoNegativeRecords(s) && v >= 0
    requires t.balances == s.balances[a := v] && t.allowances == s.allowances
    ensures NoNegativeRecords(t)
  {
    forall b | b in t.balances ensures t.balances[b] >= 0 {
      if b != a {
        assert s.balances[b] >= 0;
      }
    }
  }

  lemma SetAllowanceKeepsNonNegative(s: State, t: State, p: (AccountId, AccountId), v: int)
    requires NoNegativeRecords(s) && v >= 0
    requires t.allowances == s.allowances[p := v] && t.balances == s.balances
    ensures NoNegativeRecords(t)
  {
    forall q | q in t.allowances ensures t.allowances[q] >= 0 {
      if q != p {
        assert s.allowances[q] >= 0;
      }
    }
  }

  lemma InitLedgerKeepsWellFormed(s: State, caller: Caller)
    requires WellFormed(s)
    ensures var r := InitLedger(s, caller); r.Ok? ==> WellFormed(r.value)
  {
    var r := InitLedger(s, caller);
    if r.Ok? {
      SetBalanceKeepsNonNegative(s, r.value, caller.id, 10000);
    }
  }

  lemma MintTokensKeepsWellFormed(s: State, caller: Caller, n: int)
    requires WellFormed(s) && n >= 0
    requires caller.isAdmin && s.token.Some? ==> InGoInt(s.token.value.totalSupply + n)
    ensures var r := MintTokens(s, caller, n); r.Ok? ==> WellFormed(r.value)
  {
    var r := MintTokens(s, caller, n);
    if r.Ok? {
      var b := s.balances[caller.id] + n;
      assert b >= 0;
      SetBalanceKeepsNonNegative(s, r.value, caller.id, b);
    }
  }

  lemma BurnTokensKeepsWellFormed(s: State, caller: Caller, n: int)
    requires WellFormed(s) && n >= 0
    ensures var r := BurnTokens(s, caller, n); r.Ok? ==> WellFormed(r.value)
  {
    var r := BurnTokens(s, caller, n);
    if r.Ok? {
      var b := s.balances[caller.id] - n;
      assert b >= 0;
      SetBalanceKeepsNonNegative(s, r.value, caller.id, b);
    }
  }

  lemma TransferTokensKeepsWellFormed(s: State, from: AccountId, to: AccountId, n: int)
    requires WellFormed(s) && n >= 0
    ensures var r := TransferTokens(s, from, to, n); r.Ok? ==> WellFormed(r.value)
  {
    var r := TransferTokens(s, from, to, n);
    if r.Ok? {
      assert r.value.token == s.token;
      assert SupplyInRange(r.value);
      assert from in s.balances && to in s.balances && s.balances[from] >= n;
      if from == to {
        SetBalanceKeepsNonNegative(s, r.value, from, s.balances[from] + n);
      } else {
        TransferKeepsNonNegative(s, r.value, from, to, n);
      }
    }
  }

  /** A debit covered by the balance and a non-negative credit keep balances non-negative. */
  lemma TransferKeepsNonNegative(s: State, t: State, from: AccountId, to: AccountId, n: int)
    requires NoNegativeRecords(s) && n >= 0 && from != to
    requires from in s.balances && s.balances[from] >= n && to in s.balances
    requires t.balances == s.balances[from := s.balances[from] - n][to := s.balances[to] + n]
    requires t.allowances == s.allowances
    ensures NoNegativeRecords(t)
  {
    var mid := State(s.token, s.balances[from := s.balances[from] - n], s.allowances);
    SetBalanceKeepsNonNegative(s, mid, from, s.balances[from] - n);
    SetBalanceKeepsNonNegative(mid, t, to, s.balances[to] + n);
  }

  lemma ApproveSpenderKeepsWellFormed(s: State, caller: Caller, owner: AccountId, n: int)
    requires WellFormed(s) && n >= 0
    ensures var r := ApproveSpender(s, caller, owner, n); r.Ok? ==> WellFormed(r.value)
  {
    var r := ApproveSpender(s, caller, owner, n);
    if r.Ok? {
      var p := (owner, caller.id);
      var a := if p in s.allowances then s.allowances[p] + n else n;
      assert a >= 0;
      assert r.value == State(s.token, s.balances, s.allowances[p := a]);
      SetAllowanceKeepsNonNegative(s, r.value, p, a);
    }
  }

  lemma TransferFromKeepsWellFormed(s: State, caller: Caller, owner: AccountId, to: AccountId, n: int)
    requires WellFormed(s) && n >= 0
    ensures var r := TransferFrom(s, caller, owner, to, n); r.Ok? ==> WellFormed(r.value)
  {
    var r := TransferFrom(s, caller, owner, to, n);
    if r.Ok? {
      var p := (owner, caller.id);
      var a := s.allowances[p] - n;
      var b := s.balances[to] + n;
      assert a >= 0 && b >= 0;
      var mid := State(s.token, s.balances, s.allowances[p := a]);
      SetAllowanceKeepsNonNegative(s, mid, p, a);
      assert r.value == State(s.token, s.balances[to := b], s.allowances[p := a]);
      SetBalanceKeepsNonNegative(mid, r.value, to, b);
    }
  }

  /** Every request with a non-negative amount keeps the ledger well formed,
      whether it is accepted or rejected. */
  lemma StepPreservesWellFormed(s: State, caller: Caller, op: Op)
    requires WellFormed(s) && NoOverflow(s, caller, op) && NonNegativeAmount(op)
    ensures WellFormed(Settle(s, caller, op))
  {
    match op
    case InitLedgerOp => InitLedgerKeepsWellFormed(s, caller);
    case MintTokensOp(n) => MintTokensKeepsWellFormed(s, caller, n);
    case BurnTokensOp(n) => BurnTokensKeepsWellFormed(s, caller, n);
    case TransferTokensOp(from, to, n) => TransferTokensKeepsWellFormed(s, from, to, n);
    case ApproveSpenderOp(owner, n) => ApproveSpenderKeepsWellFormed(s, caller, owner, n);
    case TransferFromOp(owner, to, n) => TransferFromKeepsWellFormed(s, caller, owner, to, n);
  }

  lemma {:induction false} WellFormedAlongRun(s: State, calls: seq<(Caller, Op)>)
    requires WellFormed(s)
    requires NoOverflowRun(s, calls)
    requires forall i :: 0 <= i < |calls| ==> NonNegativeAmount(calls[i].1)
    ensures WellFormed(RunAll(s, calls))
    decreases |calls|
  {
    if calls != [] {
      StepPreservesWellFormed(s, calls[0].0, calls[0].1);
      var rest := calls[1..];
      assert forall i :: 0 <= i < |rest| ==> NonNegativeAmount(rest[i].1) by {
        forall i | 0 <= i < |rest| ensures NonNegativeAmount(rest[i].1) {
          assert rest[i] == calls[i + 1];
        }
      }
      WellFormedAlongRun(Settle(s, calls[0].0, calls[0].1), rest);
    }
  }

  /** Burning a negative amount at full supply raises the supply past the cap. */
  lemma NegativeBurnExceedsCap()
    ensures var admin := Caller(1, true);
      var s := State(Some(Token("BNB-Token", "BNB", 18, MaxTokensInCirculation)), map[1 := 0], map[]);
      && WellFormed(s)
      && BurnTokens(s, admin, -1).Ok?
      && !SupplyInRange(BurnTokens(s, admin, -1).value)
  {
  }

  /** Transferring a negative amount drives the receiver's balance negative. */
  lemma NegativeTransferDrainsReceiver()
    ensures var s := State(None, map[1 := 0, 2 := 0], map[]);
      && WellFormed(s)
      && TransferTokens(s, 1, 2, -5).Ok?
      && TransferTokens(s, 1, 2, -5).value.balances[2] == -5
  {
  }

  /** Why the run lemmas need `NoOverflow`: any client may move an account's
      whole balance to itself, which doubles it. From a well-formed ledger
      holding 2^62, one such transfer is accepted and leaves a balance that
      Go's `int` cannot hold (the chaincode would wrap it negative); the
      overflow assumption is exactly what rules the request out. */
  lemma SelfTransferLeavesGoInt()
    ensures var s := State(Some(InitialToken), map[1 := 0x4000_0000_0000_0000], map[]);
      && WellFormed(s)
      && TransferTokens(s, 1, 1, 0x4000_0000_0000_0000).Ok?
      && !InGoInt(TransferTokens(s, 1, 1, 0x4000_0000_0000_0000).value.balances[1])
      && !NoOverflow(s, Caller(1, false), TransferTokensOp(1, 1, 0x4000_0000_0000_0000))
  {
  }
}

=== FILE: conservation.dfy ===
/** The conservation question: does the sum of all balances track the total
    supply? Minting, burning, approving and transferring between two distinct
    accounts keep the gap between the two unchanged. Transferring to oneself,
    spending an allowance and re-initialising do not: each lets the sum of
    balances outgrow the supply. */
module Conservation {
  import opened Results
  import opened Ledger
  import opened Sums
  import opened TokenContract
  import opened Invocation

  /** Sum of balances minus total supply; zero on a conserving ledger. */
  ghost function Imbalance(s: State): int
    requires s.token.Some?
  {
    Sum(s.balances) - s.token.value.totalSupply
  }

  ghost predicate Conserved(s: State) {
    s.token.Some? && Imbalance(s) == 0
  }

  lemma {:induction false} MintPreservesImbalance(s: State, caller: Caller, amount: int)
    requires caller.isAdmin && s.token.Some? ==> InGoInt(s.token.value.totalSupply + amount)
    ensures var r := MintTokens(s, caller, amount);
      r.Ok? ==> r.value.token.Some? && Imbalance(r.value) == Imbalance(s)
  {
    var r := MintTokens(s, caller, amount);
    if r.Ok? {
      SumUpdate(s.balances, caller.id, s.balances[caller.id] + amount);
    }
  }

  lemma {:induction false} BurnPreservesImbalance(s: State, caller: Caller, amount: int)
    ensures var r := BurnTokens(s, caller, amount);
      r.Ok? ==> r.value.token.Some? && Imbalance(r.value) == Imbalance(s)
  {
    var r := BurnTokens(s, caller, amount);
    if r.Ok? {
      SumUpdate(s.balances, caller.id, s.balances[caller.id] - amount);
    }
  }

  /** A transfer between two distinct accounts only moves value. */
  lemma {:induction false} TransferPreservesSum(s: State, from: AccountId, to: AccountId, amount: int)
    requires from != to
    ensures var r := TransferTokens(s, from, to, amount);
      r.Ok? ==> Sum(r.value.balances) == Sum(s.balances) && r.value.token == s.token
  {
    var r := TransferTokens(s, from, to, amount);
    if r.Ok? {
      var m := s.balances[from := s.balances[from] - amount];
      SumUpdate(s.balances, from, s.balances[from] - amount);
      SumUpdate(m, to, s.balances[to] + amount);
    }
  }

  /** A transfer to oneself credits without debiting: the sum of balances
      grows by the amount while the supply stays put. */
  lemma {:induction false} SelfTransferInflates(s: State, a: AccountId, amount: int)
    ensures var r := TransferTokens(s, a, a, amount);
      r.Ok? ==> Sum(r.value.balances) == Sum(s.balances) + amount && r.value.token == s.token
  {
    var r := TransferTokens(s, a, a, amount);
    if r.Ok? {
      SumUpdate(s.balances, a, s.balances[a] + amount);
    }
  }

  /** Spending an allowance credits the receiver without debiting the owner:
      the sum of balances grows by the amount spent. */
  lemma {:induction false} TransferFromInflates(s: State, caller: Caller, owner: AccountId, sendTo: AccountId, tokens: int)
    ensures var r := TransferFrom(s, caller, owner, sendTo, tokens);
      r.Ok? ==> Sum(r.value.balances) == Sum(s.balances) + tokens && r.value.token == s.token
  {
    var r := TransferFrom(s, caller, owner, sendTo, tokens);
    if r.Ok? {
      SumUpdate(s.balances, sendTo, s.balances[sendTo] + tokens);
    }
  }

  /** After initialisation the supply is 10000 and so is the admin's balance,
      so the gap is whatever the other accounts already held. */
  lemma {:induction false} InitLedgerImbalance(s: State, caller: Caller)
    ensures var r := InitLedger(s, caller);
      r.Ok? ==> r.value.token.Some? && Imbalance(r.value) == Sum(s.balances - {caller.id})
  {
    var r := InitLedger(s, caller);
    if r.Ok? {
      var m := s.balances[caller.id := 10000];
      SumRemove(m, caller.id);
      assert m - {caller.id} == s.balances - {caller.id};
    }
  }

  /** Requests whose every successful outcome keeps the gap: all but
      initialisation, spending an allowance and transferring to oneself. */
  predicate KeepsGap(op: Op) {
    || op.MintTokensOp?
    || op.BurnTokensOp?
    || op.ApproveSpenderOp?
    || (op.TransferTokensOp? && op.transferFrom != op.transferTo)
  }

  lemma StepPreservesImbalance(s: State, caller: Caller, op: Op)
    requires s.token.Some? && NoOverflow(s, caller, op) && KeepsGap(op)
    ensures Settle(s, caller, op).token.Some?
    ensures Imbalance(Settle(s, caller, op)) == Imbalance(s)
  {
    match op
    case MintTokensOp(n) => MintPreservesImbalance(s, caller, n);
    case BurnTokensOp(n) => BurnPreservesImbalance(s, caller, n);
    case ApproveSpenderOp(_, _) =>
    case TransferTokensOp(from, to, n) => TransferPreservesSum(s, from, to, n);
  }

  /** Along any sequence of mints, burns, approvals and transfers between
      distinct accounts, accepted or rejected, the sum of balances keeps
      tracking the total supply. */
  lemma {:induction false} ConservedAlongRun(s: State, calls: seq<(Caller, Op)>)
    requires Conserved(s)
    requires NoOverflowRun(s, calls)
    requires forall i :: 0 <= i < |calls| ==> KeepsGap(calls[i].1)
    ensures Conserved(RunAll(s, calls))
    decreases |calls|
  {
    if calls != [] {
      StepPreservesImbalance(s, calls[0].0, calls[0].1);
      var rest := calls[1..];
      assert forall i :: 0 <= i < |rest| ==> KeepsGap(rest[i].1) by {
        forall i | 0 <= i < |rest| ensures KeepsGap(rest[i].1) {
          assert rest[i] == calls[i + 1];
        }
      }
      ConservedAlongRun(Settle(s, calls[0].0, calls[0].1), rest);
    }
  }

  /** Initialising an empty ledger establishes conservation. */
  lemma InitLedgerOnEmptyConserves(caller: Caller)
    requires caller.isAdmin
    ensures InitLedger(Empty, caller).Ok?
    ensures Conserved(InitLedger(Empty, caller).value)
  {
    InitLedgerImbalance(Empty, caller);
    assert Empty.balances - {caller.id} == map[];
  }
}

=== FILE: invocation.dfy ===
/** The chaincode as the host sees it: a client names one of the operations,
    the host runs it against the current ledger, and commits its write set
    only when it returns without error. A rejected invocation leaves the
    ledger exactly as it was. */
module Invocation {
  import opened Results
  import opened Ledger
  import opened TokenContract

  /** One client request: the operation and its arguments. The spender of
      ApproveSpender and TransferFrom, and the account credited or debited by
      MintTokens and BurnTokens, is the caller. */
  datatype Op =
    | InitLedgerOp
    | MintTokensOp(tokensToMint: int)
    | TransferTokensOp(transferFrom: AccountId, transferTo: AccountId, amount: int)
    | ApproveSpenderOp(owner: AccountId, tokens: int)
    | TransferFromOp(owner: AccountId, sendTo: AccountId, tokens: int)
    | BurnTokensOp(burnTokensCount: int)

  /** Every `+` and `-` the chaincode actually performs on stored amounts
      for this request stays within Go's 64-bit `int`, so the model's
      unbounded arithmetic agrees with the chaincode's wrapping one. Each
      conjunct guards one source line and applies only when the checks that
      precede that line pass: the supply and balance sums of minting (lines
      82, 86, 98), the debit and credit of a transfer (119, 130), the growing
      allowance (177), the allowance debit and credit of a spend (213, 225),
      and the two debits of burning (264, 271). A request rejected before
      its arithmetic is never excluded. */
  predicate NoOverflow(s: State, caller: Caller, op: Op) {
    match op
    case InitLedgerOp => true
    case MintTokensOp(n) =>
      caller.isAdmin && s.token.Some? ==>
        && InGoInt(s.token.value.totalSupply + n)
        && (s.token.value.totalSupply + n <= MaxTokensInCirculation && caller.id in s.balances ==>
              InGoInt(s.balances[caller.id] + n))
    case TransferTokensOp(from, to, n) =>
      from in s.balances && s.balances[from] >= n ==>
        && InGoInt(s.balances[from] - n)
        && (to in s.balances ==> InGoInt(s.balances[to] + n))
    case ApproveSpenderOp(owner, n) =>
      (owner in s.balances && s.balances[owner] >= n && (owner, caller.id) in s.allowances) ==>
        InGoInt(s.allowances[(owner, caller.id)] + n)
    case TransferFromOp(owner, to, n) =>
      ((owner, caller.id) in s.allowances && s.allowances[(owner, caller.id)] >= n) ==>
        && InGoInt(s.allowances[(owner, caller.id)] - n)
        && (to in s.balances ==> InGoInt(s.balances[to] + n))
    case BurnTokensOp(n) =>
      (s.token.Some? && s.token.value.totalSupply >= n && caller.isAdmin
       && caller.id in s.balances && s.balances[caller.id] >= n) ==>
        && InGoInt(s.token.value.totalSupply - n)
        && InGoInt(s.balances[caller.id] - n)
  }

  /** Runs one request against `s`. */
  function Invoke(s: State, caller: Caller, op: Op): Result<State, Error>
    requires NoOverflow(s, caller, op)
  {
    match op
    case InitLedgerOp => InitLedger(s, caller)
    case MintTokensOp(n) => MintTokens(s, caller, n)
    case TransferTokensOp(from, to, n) => TransferTokens(s, from, to, n)
    case ApproveSpenderOp(owner, n) => ApproveSpender(s, caller, owner, n)
    case TransferFromOp(owner, to, n) => TransferFrom(s, caller, owner, to, n)
    case BurnTokensOp(n) => BurnTokens(s, caller, n)
  }

  /** The ledger after the host has committed or discarded the invocation. */
  function Settle(s: State, caller: Caller, op: Op): State
    requires NoOverflow(s, caller, op)
  {
    match Invoke(s, caller, op)
    case Ok(t) => t
    case Err(_) => s
  }

  /** Every request of a sequence satisfies the overflow assumption in the
      state it runs against. */
  predicate NoOverflowRun(s: State, calls: seq<(Caller, Op)>)
    decreases |calls|
  {
    calls == [] ||
    (NoOverflow(s, calls[0].0, calls[0].1) && NoOverflowRun(Settle(s, calls[0].0, calls[0].1), calls[1..]))
  }

  /** The ledger after a sequence of requests, each committed or discarded. */
  function RunAll(s: State, calls: seq<(Caller, Op)>): State
    requires NoOverflowRun(s, calls)
    decreases |calls|
  {
    if calls == [] then s else RunAll(Settle(s, calls[0].0, calls[0].1), calls[1..])
  }

  /** Initialisation, minting and burning by a caller without the admin claim
      are rejected and change nothing. */
  lemma PrivilegedOpsRequireAdmin(s: State, caller: Caller, op: Op)
    requires op.InitLedgerOp? || op.MintTokensOp? || op.BurnTokensOp?
    requires NoOverflow(s, caller, op)
    requires !caller.isAdmin
    ensures Invoke(s, caller, op).Err?
    ensures Settle(s, caller, op) == s
  {
  }

  /** Balance records are only ever created by initialisation (for the
      initialising admin) and allowance records only by approval; no record
      is ever deleted. */
  lemma RecordsCreatedOnlyByInitAndApprove(s: State, caller: Caller, op: Op)
    requires NoOverflow(s, caller, op)
    ensures var t := Settle(s, caller, op);
      && s.balances.Keys <= t.balances.Keys
      && s.allowances.Keys <= t.allowances.Keys
      && (!op.InitLedgerOp? ==> t.balances.Keys == s.balances.Keys)
      && (op.InitLedgerOp? ==> t.balances.Keys <= s.balances.Keys + {caller.id})
      && (!op.ApproveSpenderOp? ==> t.allowances.Keys == s.allowances.Keys)
      && (op.ApproveSpenderOp? ==> t.allowances.Keys <= s.allowances.Keys + {(op.owner, caller.id)})
  {
  }

  /** The overflow assumption never excludes a request the chaincode rejects
      before reaching its arithmetic: a non-admin minting Go's largest `int`
      on a ledger with a positive supply is in the model, rejected with
      `NotAdmin` and committed as nothing. */
  lemma RejectedMintNeedsNoOverflowBound()
    ensures var s := State(Some(InitialToken), map[5 := 0], map[]);
      && NoOverflow(s, Caller(5, false), MintTokensOp(GoIntMax))
      && Invoke(s, Caller(5, false), MintTokensOp(GoIntMax)) == Err(NotAdmin)
      && Settle(s, Caller(5, false), MintTokensOp(GoIntMax)) == s
  {
  }
}

=== FILE: ledger.dfy ===
/** The world state the token chaincode keeps in the Fabric key-value store,
    and the store's write-set semantics.

    The store holds three kinds of record under three key spaces: the single
    token descriptor under the fixed key "BNB-Token", one balance record per
    account under the account identifier itself, and one allowance record per
    (owner, spender) pair under the composite key ("ApproveSpender", owner,
    spender). The model ASSUMES these key spaces are disjoint: no account
    argument a client passes equals "BNB-Token" or has the shape of a
    composite key. The chaincode does not enforce this. Under the assumption
    the store is exactly the three-part `State` below. */
module Ledger {
  import opened Results

  /** An account identifier. The chaincode compares identifiers, uses them
      as keys and combines them into composite keys, so they are abstracted
      to integers. */
  type AccountId = int

  /** Upper bound on the total supply, checked by minting. */
  const MaxTokensInCirculation: int := 200000000

  /** The descriptor: name, symbol, decimals (informational only) and supply. */
  datatype Token = Token(name: string, symbol: string, decimals: int, totalSupply: int)

  /** Ledger state: optional descriptor, balances, allowances keyed (owner, spender).
      A key missing from a map is a record the store does not hold. */
  datatype State = State(
    token: Option<Token>,
    balances: map<AccountId, int>,
    allowances: map<(AccountId, AccountId), int>)

  /** A freshly deployed chaincode: nothing stored. */
  const Empty: State := State(None, map[], map[])

  /** The three disjoint key spaces of the store. */
  datatype Key = TokenKey | AccountKey(account: AccountId) | AllowanceKey(owner: AccountId, spender: AccountId)

  /** A stored value: the descriptor, or the `{balance}` record shared by
      accounts and allowances. */
  datatype Record = TokenRecord(token: Token) | BalanceRecord(amount: int)

  /** One buffered `PutState`. */
  datatype Write =
    | PutToken(token: Token)
    | PutBalance(account: AccountId, amount: int)
    | PutAllowance(owner: AccountId, spender: AccountId, amount: int)
  {
    function Key(): Key {
      match this
      case PutToken(_) => TokenKey
      case PutBalance(a, _) => AccountKey(a)
      case PutAllowance(o, sp, _) => AllowanceKey(o, sp)
    }

    function Record(): Record {
      match this
      case PutToken(t) => TokenRecord(t)
      case PutBalance(_, v) => BalanceRecord(v)
      case PutAllowance(_, _, v) => BalanceRecord(v)
    }
  }

  /** `GetState(k)` against a committed state: None when nothing is stored.
      This key-level view, like `Write.Key` and `Write.Record`, serves only
      the three store facts at the end of this module; the operations read
      through `BalanceOf`, `AllowanceOf` and `State.token`. */
  function Read(s: State, k: Key): Option<Record> {
    match k
    case TokenKey => if s.token.Some? then Some(TokenRecord(s.token.value)) else None
    case AccountKey(a) => if a in s.balances then Some(BalanceRecord(s.balances[a])) else None
    case AllowanceKey(o, sp) => if (o, sp) in s.allowances then Some(BalanceRecord(s.allowances[(o, sp)])) else None
  }

  function BalanceOf(s: State, a: AccountId): Option<int> {
    if a in s.balances then Some(s.balances[a]) else None
  }

  function AllowanceOf(s: State, owner: AccountId, spender: AccountId): Option<int> {
    if (owner, spender) in s.allowances then Some(s.allowances[(owner, spender)]) else None
  }

  /** Commits one write. */
  function ApplyWrite(s: State, w: Write): State
  {
    match w
    case PutToken(tok) => s.(token := Some(tok))
    case PutBalance(a, v) => s.(balances := s.balances[a := v])
    case PutAllowance(o, sp, v) => s.(allowances := s.allowances[(o, sp) := v])
  }

  // The three lemmas below are standalone facts about Fabric's write set.
  // The operations' contracts are proved directly from `ApplyWrite`; these
  // lemmas say why the order of their writes matters only per key.

  /** A write replaces the record under its own key and leaves every other
      key's record as it was. */
  lemma ApplyWriteFrame(s: State, w: Write, k: Key)
    ensures Read(ApplyWrite(s, w), w.Key()) == Some(w.Record())
    ensures k != w.Key() ==> Read(ApplyWrite(s, w), k) == Read(s, k)
  {
  }

  /** Of two writes to the same key, the later one wins. */
  lemma LastWriteWins(s: State, w1: Write, w2: Write)
    requires w1.Key() == w2.Key()
    ensures ApplyWrite(ApplyWrite(s, w1), w2) == ApplyWrite(s, w2)
  {
  }

  /** Writes to distinct keys commute. */
  lemma DisjointWritesCommute(s: State, w1: Write, w2: Write)
    requires w1.Key() != w2.Key()
    ensures ApplyWrite(ApplyWrite(s, w1), w2) == ApplyWrite(ApplyWrite(s, w2), w1)
  {
  }
}

=== FILE: results.dfy ===
/** Failure-compatible wrappers used throughout the model: an optional value
    for "record present / absent", and a result for "invocation succeeded /
    was rejected". `Result` and the check `Need` work with Dafny's `:-`
    operator, so an operation reads like the chaincode's
    `if err != nil { return err }` chains; `Option` does not. */
module Results {

  /** A stored record that may be absent (the chaincode's nil pointer). */
  datatype Option<+T> = None | Some(value: T)

  /** The outcome of an invocation: a value, or the error returned to the client. */
  datatype Result<+T, +E> = Ok(value: T) | Err(error: E) {

    predicate IsFailure() {
      Err?
    }

    function PropagateFailure<U>(): Result<U, E>
      requires Err?
    {
      Err(error)
    }

    function Extract(): T
      requires Ok?
    {
      value
    }
  }

  /** A guard that either lets execution continue or rejects with an error. */
  datatype Check<+E> = Pass | Fail(error: E) {

    predicate IsFailure() {
      Fail?
    }

    function PropagateFailure<U>(): Result<U, E>
      requires Fail?
    {
      Err(error)
    }
  }

  /** `:- Need(c, e);` continues when `c` holds and rejects with `e` otherwise. */
  function Need<E>(condition: bool, error: E): Check<E>
  {
    if condition then Pass else Fail(error)
  }
}

=== FILE: round_trips.dfy ===
/** Operations that undo each other. */
module RoundTrips {
  import opened Results
  import opened Ledger
  import opened TokenContract

  /** Burning what was just minted restores the ledger exactly, provided the
      supply and the admin's balance were not negative to begin with. */
  lemma MintThenBurnRestores(s: State, admin: Caller, n: int)
    requires s.token.Some? && InGoInt(s.token.value.totalSupply + n)
    requires s.token.value.totalSupply >= 0
    requires admin.id in s.balances && s.balances[admin.id] >= 0
    requires MintTokens(s, admin, n).Ok?
    ensures BurnTokens(MintTokens(s, admin, n).value, admin, n) == Ok(s)
  {
    var s1 := MintTokens(s, admin, n).value;
    assert s1.balances[admin.id := s.balances[admin.id]] == s.balances;
  }

  /** Sending `n` back along a transfer between two distinct accounts
      restores the ledger, provided the receiver's balance was not negative. */
  lemma TransferThenReturnRestores(s: State, a: AccountId, b: AccountId, n: int)
    requires a != b
    requires b in s.balances && s.balances[b] >= 0
    requires TransferTokens(s, a, b, n).Ok?
    ensures TransferTokens(TransferTokens(s, a, b, n).value, b, a, n) == Ok(s)
  {
    var s1 := TransferTokens(s, a, b, n).value;
    assert s1.balances[b := s.balances[b]][a := s.balances[a]] == s.balances;
  }

  /** What an initialisation writes, a later balance query reads back: the
      initialising admin holds 10000, every other account reads as before. */
  lemma InitLedgerThenGetBalance(s: State, admin: Caller, other: AccountId)
    requires admin.isAdmin && other != admin.id
    ensures InitLedger(s, admin).Ok?
    ensures GetBalance(InitLedger(s, admin).value, admin.id) == Ok(Some(10000))
    ensures GetBalance(InitLedger(s, admin).value, other) == GetBalance(s, other)
  {
  }

  /** What a transfer between distinct accounts writes, later balance queries
      read back: `from` is debited, `to` credited, everyone else unchanged. */
  lemma TransferThenGetBalance(s: State, from: AccountId, to: AccountId, n: int, other: AccountId)
    requires from != to && other != from && other != to
    requires TransferTokens(s, from, to, n).Ok?
    ensures GetBalance(TransferTokens(s, from, to, n).value, from) == Ok(Some(s.balances[from] - n))
    ensures GetBalance(TransferTokens(s, from, to, n).value, to) == Ok(Some(s.balances[to] + n))
    ensures GetBalance(TransferTokens(s, from, to, n).value, other) == GetBalance(s, other)
  {
  }
}

=== FILE: scenarios.dfy ===
/** Concrete walk-throughs of the chaincode and the approve / spend round trip. */
module Scenarios {
  import opened Results
  import opened Ledger
  import opened Sums
  import opened TokenContract
  import opened Invocation
  import opened Conservation

  const AdminId: AccountId := 1
  const AccountXId: AccountId := 2
  const OtherAdminId: AccountId := 3

  /** Approving `t` where no allowance existed and then spending exactly `t`
      succeeds and leaves the allowance at zero. */
  lemma ApproveThenSpendDrainsAllowance(s: State, spender: Caller, owner: AccountId, sendTo: AccountId, t: int)
    requires (owner, spender.id) !in s.allowances
    requires owner in s.balances && s.balances[owner] >= t
    requires sendTo in s.balances
    ensures ApproveSpender(s, spender, owner, t).Ok?
    ensures var s1 := ApproveSpender(s, spender, owner, t).value;
      && TransferFrom(s1, spender, owner, sendTo, t).Ok?
      && AllowanceOf(TransferFrom(s1, spender, owner, sendTo, t).value, owner, spender.id) == Some(0)
  {
  }

  /** Approvals accumulate: approving `a` and then `b` allows spending `a + b`. */
  lemma ApprovalsAccumulate(s: State, spender: Caller, owner: AccountId, a: int, b: int)
    requires (owner, spender.id) !in s.allowances
    requires owner in s.balances && s.balances[owner] >= a && s.balances[owner] >= b
    ensures ApproveSpender(s, spender, owner, a).Ok?
    ensures var s1 := ApproveSpender(s, spender, owner, a).value;
      && ApproveSpender(s1, spender, owner, b).Ok?
      && AllowanceOf(ApproveSpender(s1, spender, owner, b).value, owner, spender.id) == Some(a + b)
  {
  }

  /** Starting from an empty ledger, the admin initialises and mints, but a
      transfer to an account that has never held a record is rejected. */
  lemma TransferToFreshAccountRejected()
    ensures var admin := Caller(AdminId, true);
      var s1 := InitLedger(Empty, admin);
      && s1.Ok?
      && MintTokens(s1.value, admin, 500).Ok?
      && var s2 := MintTokens(s1.value, admin, 500).value;
      && BalanceOf(s2, AdminId) == Some(10500)
      && TransferTokens(s2, AdminId, AccountXId, 200) == Err(RecordMissing)
  {
    var admin := Caller(AdminId, true);
    var s1 := State(Some(InitialToken), map[AdminId := 10000], map[]);
    assert InitLedger(Empty, admin) == Ok(s1);
    var s2 := State(Some(InitialToken.(totalSupply := 10500)), map[AdminId := 10500], map[]);
    assert s1.balances[AdminId := 10000 + 500] == s2.balances;
    assert MintTokens(s1, admin, 500) == Ok(s2);
    assert AccountXId !in s2.balances;
  }

  /** A mint by an admin without a balance record fails after the body has
      buffered the raised supply; the host discards it, so the ledger is
      unchanged. */
  lemma FailedMintDiscardsBufferedSupply()
    ensures var s := InitLedger(Empty, Caller(AdminId, true)).value;
      var other := Caller(OtherAdminId, true);
      && MintTokens(s, other, 500) == Err(RecordMissing)
      && Settle(s, other, MintTokensOp(500)) == s
      && s.token.value.totalSupply == 10000
  {
    var s := State(Some(InitialToken), map[AdminId := 10000], map[]);
    assert InitLedger(Empty, Caller(AdminId, true)) == Ok(s);
    assert OtherAdminId !in s.balances;
  }

  // The walk-through below, step by step: accountX is an admin that
  // initialised first; the admin's re-initialisation resets the supply but not
  // accountX's balance, which is what gives accountX a record to receive into.
  const Admin: Caller := Caller(AdminId, true)
  const AccountX: Caller := Caller(AccountXId, true)
  const Walk0: State := State(Some(InitialToken), map[AccountXId := 10000], map[])
  const Walk1: State := State(Some(InitialToken), map[AccountXId := 10000, AdminId := 10000], map[])
  const Walk2: State :=
    State(Some(InitialToken.(totalSupply := 10500)), map[AccountXId := 10000, AdminId := 10500], map[])
  const Walk3: State :=
    State(Some(InitialToken.(totalSupply := 10500)), map[AccountXId := 10200, AdminId := 10300], map[])
  const Walk4: State :=
    State(Some(InitialToken.(totalSupply := 10500)), map[AccountXId := 10200, AdminId := 10300],
          map[(AccountXId, AdminId) := 50])
  const Walk5: State :=
    State(Some(InitialToken.(totalSupply := 10400)), map[AccountXId := 10200, AdminId := 10200],
          map[(AccountXId, AdminId) := 50])

  lemma WalkThroughInit()
    ensures InitLedger(Empty, AccountX) == Ok(Walk0)
    ensures InitLedger(Walk0, Admin) == Ok(Walk1)
  {
    assert Walk0.balances[AdminId := 10000] == Walk1.balances;
  }

  lemma WalkThroughMintAndTransfer()
    ensures MintTokens(Walk1, Admin, 500) == Ok(Walk2)
    ensures TransferTokens(Walk2, AdminId, AccountXId, 200) == Ok(Walk3)
  {
    assert Walk1.balances[AdminId := 10000 + 500] == Walk2.balances;
    assert Walk2.balances[AdminId := 10500 - 200][AccountXId := 10000 + 200] == Walk3.balances;
  }

  lemma WalkThroughApproveAndBurn()
    ensures ApproveSpender(Walk3, Admin, AccountXId, 50) == Ok(Walk4)
    ensures BurnTokens(Walk4, Admin, 100) == Ok(Walk5)
  {
    assert Walk4.balances[AdminId := 10300 - 100] == Walk5.balances;
  }

  /** AccountX initialises, the admin initialises again, mints 500,
      transfers 200 to accountX, grants itself an allowance of 50 on
      accountX's balance and burns 100: the supply ends at 10400, both
      accounts at 10200 and the (accountX, admin) allowance at 50, with sum
      of balances and supply apart by accountX's initial 10000. */
  lemma WalkThrough()
    ensures InitLedger(Empty, AccountX) == Ok(Walk0)
    ensures InitLedger(Walk0, Admin) == Ok(Walk1)
    ensures MintTokens(Walk1, Admin, 500) == Ok(Walk2)
    ensures TransferTokens(Walk2, AdminId, AccountXId, 200) == Ok(Walk3)
    ensures ApproveSpender(Walk3, Admin, AccountXId, 50) == Ok(Walk4)
    ensures BurnTokens(Walk4, Admin, 100) == Ok(Walk5)
    ensures Walk5.token.value.totalSupply == 10400 && Walk5.balances[AdminId] == 10200
    ensures Walk5.balances[AccountXId] == 10200
    ensures AllowanceOf(Walk5, AccountXId, AdminId) == Some(50)
  {
    WalkThroughInit();
    WalkThroughMintAndTransfer();
    WalkThroughApproveAndBurn();
  }

  /** Re-initialisation is not guarded: a second admin's initialisation
      resets the supply to 10000 while the first admin keeps 10000, so the
      balances exceed the supply by 10000. */
  lemma ReinitialisationBreaksConservation()
    ensures var s0 := InitLedger(Empty, Caller(AccountXId, true)).value;
      var s1 := InitLedger(s0, Caller(AdminId, true)).value;
      && Conserved(s0)
      && s1.token.value.totalSupply == 10000
      && Imbalance(s1) == 10000
  {
    var s0 := InitLedger(Empty, Caller(AccountXId, true)).value;
    InitLedgerOnEmptyConserves(Caller(AccountXId, true));
    InitLedgerImbalance(s0, Caller(AdminId, true));
    var rest := s0.balances - {AdminId};
    assert rest == map[AccountXId := 10000];
    SumRemove(rest, AccountXId);
    assert rest - {AccountXId} == map[];
  }
}

=== FILE: sums.dfy ===
/** The sum of all balances, the left-hand side of the conservation invariant
    "sum of balances equals total supply". */
module Sums {
  import opened Ledger

  /** Sum of the values of a finite map, taken in an arbitrary key order. */
  ghost function Sum(m: map<AccountId, int>): int
    decreases |m|
  {
    if m == map[] then 0
    else
      NonEmptyHasKey(m);
      var k :| k in m;
      m[k] + Sum(m - {k})
  }

  lemma NonEmptyHasKey(m: map<AccountId, int>)
    requires m != map[]
    ensures exists k :: k in m
  {
    if forall k :: k !in m {
      assert false;
    }
  }

  /** The sum does not depend on the order in which keys are taken: any key
      can be split off first. */
  lemma {:induction false} SumRemove(m: map<AccountId, int>, k: AccountId)
    requires k in m
    ensures Sum(m) == m[k] + Sum(m - {k})
    decreases |m|
  {
    var j :| j in m && Sum(m) == m[j] + Sum(m - {j});
    if j != k {
      SumRemove(m - {j}, k);
      SumRemove(m - {k}, j);
      assert m - {j} - {k} == m - {k} - {j};
    }
  }

  /** Overwriting one entry changes the sum by the difference of the two
      values; adding a new entry adds its value. */
  lemma SumUpdate(m: map<AccountId, int>, k: AccountId, v: int)
    ensures k in m ==> Sum(m[k := v]) == Sum(m) - m[k] + v
    ensures k !in m ==> Sum(m[k := v]) == Sum(m) + v
  {
    SumRemove(m[k := v], k);
    if k in m {
      SumRemove(m, k);
      assert m[k := v] - {k} == m - {k};
    } else {
      assert m[k := v] - {k} == m;
    }
  }
}

=== FILE: token_contract.dfy ===
/** The public operations of the token chaincode (chaincode/erc20token.go),
    each a pure transition from the ledger state and the calling identity to
    either a new state or an error.

    Each operation is written twice. The `...Tx` function follows the Go body
    step by step against a Fabric transaction: reads go to the state as it was
    when the invocation began (`GetState` does not see the invocation's own
    `PutState`s) and writes are buffered in order. The public function commits
    the buffered writes when the body succeeds, and its contract states the
    effect on the ledger in terms of the state alone. A body that fails after
    it has buffered writes (minting, transferring) commits nothing: the host
    discards the whole write set. */
module TokenContract {
  import opened Results
  import opened Ledger

  /** Why an invocation was rejected. A nil `*Balance` dereferenced by the Go
      code aborts the invocation; it is `RecordMissing` here. */
  datatype Error =
    | NotAdmin
    | TokenMissing
    | RecordMissing
    | SupplyCapExceeded
    | InsufficientBalance
    | InsufficientAllowance
    | InsufficientSupply

  /** The invoking identity as the identity service reports it: its stable
      identifier and whether its certificate carries the "admin" OU. */
  datatype Caller = Caller(id: AccountId, isAdmin: bool)

  /** Range of Go's 64-bit `int`. */
  const GoIntMin: int := -0x8000_0000_0000_0000
  const GoIntMax: int := 0x7fff_ffff_ffff_ffff

  predicate InGoInt(x: int) {
    GoIntMin <= x <= GoIntMax
  }

  /** The descriptor written by ledger initialisation. */
  const InitialToken: Token := Token("BNB-Token", "BNB", 18, 10000)

  /** An invocation in progress: the state its reads see, and the state its
      buffered writes will commit. Reads never see the invocation's own
      writes, and a later write to a key replaces an earlier one. */
  datatype Tx = Tx(pre: State, post: State)

  function Begin(s: State): Tx {
    Tx(s, s)
  }

  /** Buffers one `PutState`. */
  function Put(tx: Tx, w: Write): Tx {
    tx.(post := ApplyWrite(tx.post, w))
  }

  /** Commits the writes of a successful body; a failed body commits nothing. */
  function Commit(r: Result<Tx, Error>): Result<State, Error> {
    match r
    case Ok(tx) => Ok(tx.post)
    case Err(e) => Err(e)
  }

  /** Admin check: a caller without the admin OU is rejected, an admin gets its id. */
  function IsAdmin(caller: Caller): Result<AccountId, Error> {
    if caller.isAdmin then Ok(caller.id) else Err(NotAdmin)
  }

  /** Reads the descriptor; unmarshalling the empty value of an absent key fails. */
  function GetTokenRecord(tx: Tx): Result<Token, Error> {
    match tx.pre.token
    case Some(t) => Ok(t)
    case None => Err(TokenMissing)
  }

  /** Reads a balance record; an absent key gives no record (a nil pointer). */
  function GetBalanceRecord(tx: Tx, a: AccountId): Option<int> {
    BalanceOf(tx.pre, a)
  }

  function GetAllowanceRecord(tx: Tx, owner: AccountId, spender: AccountId): Option<int> {
    AllowanceOf(tx.pre, owner, spender)
  }

  /** Reading the amount of a record the code did not nil-check. */
  function Deref(b: Option<int>): Result<int, Error> {
    match b
    case Some(v) => Ok(v)
    case None => Err(RecordMissing)
  }

  // ---------------------------------------------------------------- bodies

  function InitLedgerTx(tx: Tx, caller: Caller): Result<Tx, Error> {
    var clientId :- IsAdmin(caller);
    var tx1 := Put(tx, PutToken(InitialToken));
    Ok(Put(tx1, PutBalance(clientId, InitialToken.totalSupply)))
  }

  function MintTokensTx(tx: Tx, caller: Caller, tokensToMint: int): Result<Tx, Error> {
    var clientId :- IsAdmin(caller);
    var token :- GetTokenRecord(tx);
    :- Need(token.totalSupply + tokensToMint <= MaxTokensInCirculation, SupplyCapExceeded);
    var tx1 := Put(tx, PutToken(token.(totalSupply := token.totalSupply + tokensToMint)));
    var balance :- Deref(GetBalanceRecord(tx1, clientId));
    Ok(Put(tx1, PutBalance(clientId, balance + tokensToMint)))
  }

  function TransferTokensTx(tx: Tx, transferFrom: AccountId, transferTo: AccountId, amount: int): Result<Tx, Error> {
    var balance :- Deref(GetBalanceRecord(tx, transferFrom));
    :- Need(balance >= amount, InsufficientBalance);
    var tx1 := Put(tx, PutBalance(transferFrom, balance - amount));
    var recvBalance :- Deref(GetBalanceRecord(tx1, transferTo));
    Ok(Put(tx1, PutBalance(transferTo, recvBalance + amount)))
  }

  function ApproveSpenderTx(tx: Tx, caller: Caller, owner: AccountId, tokens: int): Result<Tx, Error> {
    var balance :- Deref(GetBalanceRecord(tx, owner));
    :- Need(balance >= tokens, InsufficientBalance);
    var clientId := caller.id;
    var approved :=
      match GetAllowanceRecord(tx, owner, clientId)
      case None => tokens
      case Some(a) => a + tokens;
    Ok(Put(tx, PutAllowance(owner, clientId, approved)))
  }

  function TransferFromTx(tx: Tx, caller: Caller, owner: AccountId, sendTo: AccountId, tokens: int): Result<Tx, Error> {
    var clientId := caller.id;
    var allowance :- Deref(GetAllowanceRecord(tx, owner, clientId));
    :- Need(allowance >= tokens, InsufficientAllowance);
    var tx1 := Put(tx, PutAllowance(owner, clientId, allowance - tokens));
    var recvBalance :- Deref(GetBalanceRecord(tx1, sendTo));
    Ok(Put(tx1, PutBalance(sendTo, recvBalance + tokens)))
  }

  function BurnTokensTx(tx: Tx, caller: Caller, burnTokensCount: int): Result<Tx, Error> {
    var token :- GetTokenRecord(tx);
    :- Need(token.totalSupply >= burnTokensCount, InsufficientSupply);
    var clientId :- IsAdmin(caller);
    var balance :- Deref(GetBalanceRecord(tx, clientId));
    :- Need(balance >= burnTokensCount, InsufficientBalance);
    var tx1 := Put(tx, PutToken(token.(totalSupply := token.totalSupply - burnTokensCount)));
    Ok(Put(tx1, PutBalance(clientId, balance - burnTokensCount)))
  }

  // ------------------------------------------------------------ operations

  /** Initialisation by an admin: writes the fixed descriptor and sets the
      admin's balance to the initial supply, replacing whatever was there. */
  function InitLedger(s: State, caller: Caller): (r: Result<State, Error>)
    ensures r.Ok? <==> caller.isAdmin
    ensures !caller.isAdmin ==> r == Err(NotAdmin)
    ensures r.Ok? ==> r.value.token == Some(Token("BNB-Token", "BNB", 18, 10000))
    ensures r.Ok? ==> r.value.balances == s.balances[caller.id := 10000]
    ensures r.Ok? ==> r.value.allowances == s.allowances
  {
    Commit(InitLedgerTx(Begin(s), caller))
  }

  /** Minting by an admin into its own account, bounded by the supply cap. */
  function MintTokens(s: State, caller: Caller, amount: int): (r: Result<State, Error>)
    requires caller.isAdmin && s.token.Some? ==> InGoInt(s.token.value.totalSupply + amount)
    ensures r.Ok? <==>
      && caller.isAdmin
      && s.token.Some?
      && s.token.value.totalSupply + amount <= MaxTokensInCirculation
      && caller.id in s.balances
    ensures !caller.isAdmin ==> r == Err(NotAdmin)
    ensures caller.isAdmin && s.token.None? ==> r == Err(TokenMissing)
    ensures caller.isAdmin && s.token.Some? && s.token.value.totalSupply + amount > MaxTokensInCirculation
      ==> r == Err(SupplyCapExceeded)
    ensures (caller.isAdmin && s.token.Some? && s.token.value.totalSupply + amount <= MaxTokensInCirculation
             && caller.id !in s.balances) ==> r == Err(RecordMissing)
    ensures r.Ok? ==> r.value.token == Some(s.token.value.(totalSupply := s.token.value.totalSupply + amount))
    ensures r.Ok? ==> r.value.balances == s.balances[caller.id := s.balances[caller.id] + amount]
    ensures r.Ok? ==> r.value.allowances == s.allowances
  {
    Commit(MintTokensTx(Begin(s), caller, amount))
  }

  /** Moves `amount` from one account to another. Nothing checks that the
      caller owns `from`. Both reads see the state before the invocation, so
      when `from == to` the second write wins and the balance grows. */
  function TransferTokens(s: State, from: AccountId, to: AccountId, amount: int): (r: Result<State, Error>)
    ensures r.Ok? <==> from in s.balances && s.balances[from] >= amount && to in s.balances
    ensures from !in s.balances ==> r == Err(RecordMissing)
    ensures from in s.balances && s.balances[from] < amount ==> r == Err(InsufficientBalance)
    ensures from in s.balances && s.balances[from] >= amount && to !in s.balances ==> r == Err(RecordMissing)
    ensures r.Ok? && from != to ==>
      r.value.balances == s.balances[from := s.balances[from] - amount][to := s.balances[to] + amount]
    ensures r.Ok? && from == to ==> r.value.balances == s.balances[from := s.balances[from] + amount]
    ensures r.Ok? ==> r.value.token == s.token && r.value.allowances == s.allowances
  {
    Commit(TransferTokensTx(Begin(s), from, to, amount))
  }

  /** Balance query: never fails; an account without a record is reported as
      having no record rather than a zero balance. */
  function GetBalance(s: State, clientId: AccountId): (r: Result<Option<int>, Error>)
    ensures r.Ok?
    ensures r.value.Some? <==> clientId in s.balances
    ensures r.value.Some? ==> r.value.value == s.balances[clientId]
  {
    Ok(GetBalanceRecord(Begin(s), clientId))
  }

  /** The caller becomes a spender of `owner`'s tokens. The owner's current
      balance must cover `tokens`; the approval adds to an existing one. */
  function ApproveSpender(s: State, caller: Caller, owner: AccountId, tokens: int): (r: Result<State, Error>)
    ensures r.Ok? <==> owner in s.balances && s.balances[owner] >= tokens
    ensures owner !in s.balances ==> r == Err(RecordMissing)
    ensures owner in s.balances && s.balances[owner] < tokens ==> r == Err(InsufficientBalance)
    ensures r.Ok? && (owner, caller.id) !in s.allowances ==>
      r.value.allowances == s.allowances[(owner, caller.id) := tokens]
    ensures r.Ok? && (owner, caller.id) in s.allowances ==>
      r.value.allowances == s.allowances[(owner, caller.id) := s.allowances[(owner, caller.id)] + tokens]
    ensures r.Ok? ==> r.value.token == s.token && r.value.balances == s.balances
  {
    Commit(ApproveSpenderTx(Begin(s), caller, owner, tokens))
  }

  /** The caller spends from its allowance on `owner`, crediting `sendTo`.
      The owner's balance is not debited. */
  function TransferFrom(s: State, caller: Caller, owner: AccountId, sendTo: AccountId, tokens: int): (r: Result<State, Error>)
    ensures r.Ok? <==>
      && (owner, caller.id) in s.allowances
      && s.allowances[(owner, caller.id)] >= tokens
      && sendTo in s.balances
    ensures (owner, caller.id) !in s.allowances ==> r == Err(RecordMissing)
    ensures (owner, caller.id) in s.allowances && s.allowances[(owner, caller.id)] < tokens
      ==> r == Err(InsufficientAllowance)
    ensures ((owner, caller.id) in s.allowances && s.allowances[(owner, caller.id)] >= tokens
             && sendTo !in s.balances) ==> r == Err(RecordMissing)
    ensures r.Ok? ==>
      r.value.allowances == s.allowances[(owner, caller.id) := s.allowances[(owner, caller.id)] - tokens]
    ensures r.Ok? ==> r.value.balances == s.balances[sendTo := s.balances[sendTo] + tokens]
    ensures r.Ok? ==> r.value.token == s.token
  {
    Commit(TransferFromTx(Begin(s), caller, owner, sendTo, tokens))
  }

  /** Burning by an admin from its own account. The supply is checked before
      the caller's admin status. */
  function BurnTokens(s: State, caller: Caller, amount: int): (r: Result<State, Error>)
    ensures r.Ok? <==>
      && s.token.Some?
      && s.token.value.totalSupply >= amount
      && caller.isAdmin
      && caller.id in s.balances
      && s.balances[caller.id] >= amount
    ensures s.token.None? ==> r == Err(TokenMissing)
    ensures s.token.Some? && s.token.value.totalSupply < amount ==> r == Err(InsufficientSupply)
    ensures s.token.Some? && s.token.value.totalSupply >= amount && !caller.isAdmin ==> r == Err(NotAdmin)
    ensures (s.token.Some? && s.token.value.totalSupply >= amount && caller.isAdmin
             && caller.id !in s.balances) ==> r == Err(RecordMissing)
    ensures (s.token.Some? && s.token.value.totalSupply >= amount && caller.isAdmin
             && caller.id in s.balances && s.balances[caller.id] < amount) ==> r == Err(InsufficientBalance)
    ensures r.Ok? ==> r.value.token == Some(s.token.value.(totalSupply := s.token.value.totalSupply - amount))
    ensures r.Ok? ==> r.value.balances == s.balances[caller.id := s.balances[caller.id] - amount]
    ensures r.Ok? ==> r.value.allowances == s.allowances
  {
    Commit(BurnTokensTx(Begin(s), caller, amount))
  }
}
